=== FILE: README.md ===
# Cutting-stock policy 2212387 — a Dafny model of its decision engine

This project models the decision engine of the 2D cutting-stock policy
`Policy2212387` (`student_submissions/s2212387/policy2212387.py`). At each
step of a cutting-stock simulation, the policy picks a stock sheet, an item
size and a position. It learns action values with SARSA (policy id 1) or
Q-learning (policy id 2) and explores epsilon-greedily. The model covers
these parts:

- **Placement search** (`Placement.FindPosition`). A raster scan over a
  stock: x runs over `[0, W-w]` (outer loop), y over `[0, H-h]` (inner loop),
  and the first position the inherited `_can_place_` accepts wins.
- **Fallback action** (`Placement.FirstFit`). The source calls it
  `_random_action`, but it draws nothing at random. It is a first-fit scan:
  products in order, skipping those with quantity ≤ 0; stocks in order for
  each; the first fit wins. When nothing fits it returns the sentinel
  `{stock_idx: -1, size: [0,0], position: (0,0)}`.
- **Reward** (`Rewards.Reward`). −5 for the sentinel. `10 + 20·(item
  area)/(stock area)` when the placement is accepted. −10 otherwise.
- **Value tables** (`ValueTable`). Each table maps a state key to an
  insertion-ordered mapping from action key to value. The module has the
  dict operations (`get` with default 0, assignment that keeps an existing
  key in place and appends a new one), Python's `max` with its
  first-maximum tie-break, and the SARSA and Q-learning update rules.
- **Orchestration** (`Policy`). Construction with the policy-id check,
  `get_action`, one SARSA step and one Q-learning step. The policy state is
  threaded through each step as a value.

The model keeps the source's failure paths as `Raised` outcomes:

- **Q-learning exploitation always fails.** The `default=` argument of `max`
  at line 86 is evaluated first. It calls `_random_action()` without the
  observation, which raises a TypeError.
- **SARSA exploitation on a non-empty mapping fails.** `max` returns an
  action-key tuple, not an action dict. Subscripting the tuple with
  `"stock_idx"` fails, either when the reward is computed (line 132) or when
  the next action's key is built (line 53).

Two consequences are proved (`Policy.EveryActionIsFallback`,
`Policy.SarsaRevisitCannotExploit`):

- Every action the policy returns is the first-fit fallback action.
- Once a SARSA step has acted on an observation, the next call on the same
  observation fails if its first draw exploits.

The next-state key is computed from the same observation as the current
key (lines 41 and 92). So both updates look ahead at the current state:

- The Q-learning target uses the best value recorded for the current state
  itself.
- The SARSA target uses the current entry of the very action being taken.

`Policy.QStepLooksAheadAtOwnState` and `Policy.SarsaStepLooksAheadAtOwnEntry`
record this.

## Representation

- The two queries the policy inherits from its unseen base class are the
  fields of `Placement.Geometry`: `_can_place_` becomes `canPlace` and
  `_get_stock_size_` becomes `stockSize`. The stock type is a type
  parameter. Every property of the search and of the reward is stated
  relative to these two functions.
- The state key (`str(stocks) + str(products)`, lines 99–103) is a function
  parameter `key: Observation -> string`. The model assumes nothing about
  it beyond determinism. In particular it does not assume injectivity,
  because numpy abbreviates large arrays when it prints them.
- Each `numpy.random.rand()` draw is a `real` parameter. A draw below
  epsilon means "explore". Q-learning draws once per call. SARSA draws a
  second time (line 44) only after its action has been scored; the model
  always takes that draw as a parameter and uses it only then.
- Numbers are exact `real`s and unbounded `int`s.
- Python list indexing is modelled for the stock index in the reward: a
  negative index other than −1 counts from the end of the list.
- An exception leaves the tables as they were at that point: the current
  state has been registered with an empty mapping if it was new. The model
  returns that state with the fault.

Two facts about the code shape the model:

- The code has no area-sorted greedy mode. Policy id 1 is SARSA and id 2 is
  Q-learning.
- An empty mapping makes SARSA exploitation fall back to the first-fit
  scan. Exploitation of a non-empty mapping, and every Q-learning
  exploitation, fails instead of returning the best recorded action.

## Model

| member | source | states |
|---|---|---|
| Placement.FindPosition | student_submissions/s2212387/policy2212387.py:120-128 | A returned position lies in x ∈ [0, W−w] and y ∈ [0, H−h], and `_can_place_` accepts it there. It is no later (outer x, inner y) than any other such position. The result is "none" exactly when no position qualifies, which includes an item wider or taller than the stock. |
| Placement.FindPositionIsLeastFeasible | student_submissions/s2212387/policy2212387.py:124-127 | Any accepted position that comes no later than every other accepted position is the one the scan returns. |
| Placement.FirstStock | student_submissions/s2212387/policy2212387.py:109-111 | Finds the first stock from a given index on where the item fits anywhere, or reports that it fits on none of them. |
| Placement.FirstFit | student_submissions/s2212387/policy2212387.py:105-118 | The result is the sentinel exactly when no product with quantity > 0 fits on any stock. Otherwise it cuts the first such product, from the first stock it fits on, at that stock's search result. |
| Placement.FirstFitIsPlaceable | student_submissions/s2212387/policy2212387.py:110-116 | A non-sentinel fallback action names an existing stock and a position `_can_place_` accepts. |
| Rewards.ResolveIndex | student_submissions/s2212387/policy2212387.py:139 | A stock index in [−n, n) resolves to a list position. A negative index counts from the end. Any other index is out of range. |
| Rewards.Reward | student_submissions/s2212387/policy2212387.py:130-143 | −5 for stock index −1. −10 when `_can_place_` rejects the action on its stock. `10 + 20·(item area)/(stock area)` when it accepts. An index out of range or a stock of area zero is a fault. |
| Rewards.SentinelRewardIgnoresObservation | student_submissions/s2212387/policy2212387.py:136-137 | The reward of stock index −1 is −5 whatever the size, the position and the observation, even one with no stocks. |
| Rewards.NegativeIndexCountsFromEnd | student_submissions/s2212387/policy2212387.py:139 | A stock index below −1 is scored on the stock that many places from the end. |
| Rewards.RewardGrowsWithItemArea | student_submissions/s2212387/policy2212387.py:140-142 | On one stock of positive area, of two accepted placements the larger item earns the strictly larger reward. An accepted non-empty item earns more than 10. |
| Rewards.FallbackNeverPenalised | student_submissions/s2212387/policy2212387.py:139-143 | The fallback action is never scored −10. It earns −5 as the sentinel, and otherwise the success reward (non-finite on a zero-area stock). |
| ValueTable.Lookup | student_submissions/s2212387/policy2212387.py:55-56 | An unseen action key reads as 0. |
| ValueTable.LookupFindsEntry | student_submissions/s2212387/policy2212387.py:55-56 | In a mapping without duplicate keys, a recorded key reads as exactly the value recorded for it. |
| ValueTable.Assign | student_submissions/s2212387/policy2212387.py:58 | After the assignment, the key reads as the new value and every other key reads as before. |
| ValueTable.AssignKeyOrder | student_submissions/s2212387/policy2212387.py:58 | An existing key keeps its place in the iteration order, and a new key is appended last. |
| ValueTable.AssignKeepsDistinct | student_submissions/s2212387/policy2212387.py:58 | Assignment never creates a duplicate key. |
| ValueTable.ArgMaxFrom | student_submissions/s2212387/policy2212387.py:63 | Python's left-to-right `max`, where only a strictly greater value replaces the winner, ends at the first entry of greatest value. |
| ValueTable.ArgMax | student_submissions/s2212387/policy2212387.py:63 | On a non-empty mapping, returns an entry of greatest value with every earlier entry strictly smaller. |
| ValueTable.MaxOrZero | student_submissions/s2212387/policy2212387.py:95 | The result is 0 for an empty mapping. Otherwise it is one of the values and at least every value, so it is not clamped at 0. |
| ValueTable.MaxFuture | student_submissions/s2212387/policy2212387.py:95 | An unseen next state, or one with no entries, contributes 0. Otherwise the contribution is one of the state's recorded values and at least every one of them, negative values included. |
| ValueTable.Blend | student_submissions/s2212387/policy2212387.py:58 | For α ∈ [0,1], `(1−α)·old + α·(r + γ·future)` lies between the old value and the target. α = 0 keeps the old value and α = 1 gives the target. |
| ValueTable.SarsaUpdate | student_submissions/s2212387/policy2212387.py:50-58 | Only entry (s, a) changes. It becomes the blend of its old value (0 if unseen) and the reward plus γ times the value of (next state, next action) (0 if unseen). |
| ValueTable.QUpdate | student_submissions/s2212387/policy2212387.py:88-97 | Only entry (s, a) changes. It becomes the blend of its old value (0 if unseen) and the reward plus γ times the best value of the next state (0 if the state is unseen or empty). |
| ValueTable.ZeroUpdateShrinks | student_submissions/s2212387/policy2212387.py:94-97 | One Q-learning update of an entry with reward 0 and γ = 0, for α ∈ [0,1], keeps the entry's sign and does not increase its magnitude. For α > 0 a non-zero entry moves strictly toward 0. |
| ValueTable.DecayShrinks | student_submissions/s2212387/policy2212387.py:94-97 | With reward 0, γ = 0 and α ∈ [0,1], one more Q-learning update of an entry keeps its sign and does not increase its magnitude. For α > 0 a non-zero value strictly moves toward 0. |
| ValueTable.DecayStaysBetween | student_submissions/s2212387/policy2212387.py:94-97 | With reward 0, γ = 0 and α ∈ [0,1], after any number of updates the entry lies between 0 and its original value. |
| Policy.NewPolicy | student_submissions/s2212387/policy2212387.py:9-17 | Construction succeeds exactly for policy id 1 (SARSA) or 2 (Q-learning). It keeps α, γ and ε, and starts with two empty tables. |
| Policy.SelectBestSarsa | student_submissions/s2212387/policy2212387.py:60-63 | An empty mapping yields the fallback action as an action dict. A non-empty one yields an action-key tuple: the first key in insertion order whose value is at least every other value. |
| Policy.Visit | student_submissions/s2212387/policy2212387.py:30-31 | A state the table does not know is registered with an empty mapping, as the SARSA table is here and the Q-learning table is at lines 70-71. Every state already known keeps its mapping unchanged. The table's states afterwards are exactly its states before plus the current one. |
| Policy.SarsaStep | student_submissions/s2212387/policy2212387.py:25-48 | A SARSA call that acts returns the fallback action. It registers the current state, keeps every known state, and leaves the Q-learning table and the parameters alone. A call that raises leaves only the registration of the current state behind: nothing is written before the failure. The fault is the reward's fault when the first choice was the fallback (the draw explored or the mapping was empty) and scoring it failed. Otherwise it is the tuple-subscript error, raised at line 132 for the first choice or at line 53 for the next one. |
| Policy.QLearningStep | student_submissions/s2212387/policy2212387.py:65-81 | A Q-learning call acts exactly when the draw explores (draw < ε) and the fallback action's reward is finite. An exploiting call raises the missing-argument error; an exploring one raises the reward's fault. When it acts it returns the fallback action. It registers the current state, keeps every known state, and leaves the SARSA table and the parameters alone. A call that raises leaves only the registration of the current state behind. |
| Policy.GetAction | student_submissions/s2212387/policy2212387.py:19-23 | Dispatches on the mode. Only the configured mode's table changes. Any action returned is the fallback action. A call that raises leaves only the registration of the current state in that table. |
| Policy.QExploitationAlwaysFails | student_submissions/s2212387/policy2212387.py:83-86 | A Q-learning call whose draw is not below ε fails with the missing-argument fault for every table content. |
| Policy.QStepLooksAheadAtOwnState | student_submissions/s2212387/policy2212387.py:88-97 | A Q-learning call that acts has explored. It changes only the entry of its action under the current state, and the future term is the best value of that same state. |
| Policy.SarsaExploitationFails | student_submissions/s2212387/policy2212387.py:37-40 | A SARSA call that exploits a state with a non-empty mapping fails subscripting an action-key tuple, and leaves the tables as they were. |
| Policy.SarsaStepActsExactly | student_submissions/s2212387/policy2212387.py:34-47 | A SARSA call acts if and only if three things hold: each draw explores or meets an empty mapping, and the fallback action's reward is finite. |
| Policy.SarsaStepLooksAheadAtOwnEntry | student_submissions/s2212387/policy2212387.py:41-47 | A SARSA call that acts changes only the entry of its action under the current state. The look-ahead value is that same entry's old value. |
| Policy.SarsaRevisitCannotExploit | student_submissions/s2212387/policy2212387.py:44-63 | After a SARSA call acts on an observation, the next call on the same observation fails if its first draw exploits. |
| Policy.EveryActionIsFallback | student_submissions/s2212387/policy2212387.py:19-23 | Every action `get_action` returns is the first-fit fallback action, and so is the sentinel or an accepted placement. |
| Policy.GetActionKeepsValid | student_submissions/s2212387/policy2212387.py:19-23 | A decision call keeps every mapping's keys distinct and never drops a state from either table. |
| Policy.UpdateKeepsDistinct | student_submissions/s2212387/policy2212387.py:58 | Writing one entry of one state keeps every mapping of the table free of duplicate keys. |
| Scenarios.FreeStockScenario | student_submissions/s2212387/policy2212387.py:120-143 | On a free 4×4 stock, a 2×2 item is placed at (0,0) on stock 0 and earns 15. |
| Scenarios.OccupiedStockScenario | student_submissions/s2212387/policy2212387.py:105-137 | On a fully occupied stock the search finds nothing, the fallback is the sentinel, and the reward is −5. |
| Scenarios.SarsaFirstThenExploitScenario | student_submissions/s2212387/policy2212387.py:25-63 | A fresh SARSA policy on the free stock acts with (0, (2,2), (0,0)) and records α·15 for it. A second call on the same observation fails once it exploits. |

## Left out

- `main.py`: the gym environment, rendering, the episode loop, printing and
  interrupt handling are I/O around an external simulator.
- Configuration through `dotenv` and `os.getenv` (lines 3, 6, 10, 15–17).
  The policy id, α, γ and ε are constructor parameters. Only the check that
  the policy id is 1 or 2 (line 11) is kept.
- `numpy.random.rand()` (lines 34, 44, 74). The draws are parameters, and
  no claim is made about their distribution.
- The body of `_generate_state_key` (lines 99–103). The encoder is an
  uninterpreted parameter because its text rendering is not injective.
- The bodies of `_can_place_` and `_get_stock_size_`. They live in the base
  class module `policy`, which is not part of this model.
- The `info` argument of `get_action`, which the source ignores.
- IEEE-754 rounding: α/γ arithmetic and the filled ratio use exact reals.
- Rewards.Reward: when `_can_place_` accepts an item on a stock of area 0,
  numpy divides by zero and yields inf or nan without raising. The model
  stops with a `NonFiniteReward` fault there. It does not carry the
  non-finite value into the tables.
- The area-sorted greedy mode and uniform-random exploration: the code has
  neither.

=== FILE: common.dfy ===
/** Failure-carrying wrappers shared by every component of the policy model. */
module Common {

  /** A value that may be absent; `None` plays the part of Python's `None`. */
  datatype Option<+T> = None | Some(value: T)

  /** Either a value or the fault that stopped the computation. */
  datatype Result<+T, +E> = Success(value: T) | Failure(error: E)

  /** The ways a decision call of the policy can stop without producing an action. */
  datatype Fault =
    /** The policy id given at construction is neither 1 nor 2 (an AssertionError). */
    | InvalidPolicyId
    /** The fallback scan is called without its observation argument (a TypeError). */
    | MissingArgument
    /** An action-key tuple is subscripted with a string, as if it were an action dict (a TypeError). */
    | KeyTupleSubscript
    /** A stock index outside the observation's stock list (an IndexError). */
    | StockIndexOutOfRange
    /** The filled ratio divides by a stock area of zero, so the reward is not a finite number. */
    | NonFiniteReward
}

=== FILE: placement.dfy ===
/**
  The placement search of the cutting-stock policy and the deterministic
  first-fit scan the policy uses as its fallback ("random") action.

  The two queries the policy inherits from its base class, whether an item
  fits at a position and how large a stock is, are not part of this model:
  they are carried as function values in `Geometry`, and every property of
  the search is stated relative to them.
 */
module Placement {
  import opened Common

  /** Width and height of an item or of a stock. */
  datatype Size = Size(w: int, h: int)

  /** An anchor position on a stock. */
  datatype Pos = Pos(x: int, y: int)

  /** The inherited queries: `canPlace` stands for `_can_place_`, `stockSize` for `_get_stock_size_`. */
  datatype Geometry<!S> = Geometry(canPlace: (S, Pos, Size) -> bool, stockSize: S -> Size)

  /** A product request: an item size and the quantity still wanted. */
  datatype Product = Product(size: Size, quantity: int)

  /** One snapshot from the environment: the stocks and the product requests, in order. */
  datatype Observation<S> = Observation(stocks: seq<S>, products: seq<Product>)

  /**
    A cutting action. It doubles as the action key of the value tables, which
    is the tuple of the same three fields.
   */
  datatype Action = Action(stockIdx: int, size: Size, pos: Pos)

  /** The action returned when no product fits on any stock. */
  const Sentinel := Action(-1, Size(0, 0), Pos(0, 0))

  /** (x, y) lies in the scanned ranges and the inherited query accepts the item there. */
  predicate Feasible<S>(g: Geometry<S>, stock: S, size: Size, x: int, y: int)
  {
    var dims := g.stockSize(stock);
    && 0 <= x <= dims.w - size.w
    && 0 <= y <= dims.h - size.h
    && g.canPlace(stock, Pos(x, y), size)
  }

  /** `p` comes no later than (x, y) in the scan order: outer x, inner y. */
  predicate LexLeq(p: Pos, x: int, y: int)
  {
    p.x < x || (p.x == x && p.y <= y)
  }

  /** Scans column `x` from row `y` upwards and returns the first feasible position. */
  function ScanColumn<S>(g: Geometry<S>, stock: S, size: Size, x: int, y: nat): (r: Option<Pos>)
    requires 0 <= x <= g.stockSize(stock).w - size.w
    decreases g.stockSize(stock).h - size.h - y + 1
    ensures r.Some? ==> r.value.x == x && y <= r.value.y && Feasible(g, stock, size, x, r.value.y)
    ensures r.Some? ==> forall y' :: y <= y' < r.value.y ==> !Feasible(g, stock, size, x, y')
    ensures r.None? ==> forall y' :: y <= y' ==> !Feasible(g, stock, size, x, y')
  {
    if y > g.stockSize(stock).h - size.h then None
    else if g.canPlace(stock, Pos(x, y), size) then Some(Pos(x, y))
    else ScanColumn(g, stock, size, x, y + 1)
  }

  /** Scans the columns from `x` rightwards and returns the first feasible position. */
  function ScanFrom<S>(g: Geometry<S>, stock: S, size: Size, x: nat): (r: Option<Pos>)
    decreases g.stockSize(stock).w - size.w - x + 1
    ensures r.Some? ==> x <= r.value.x && Feasible(g, stock, size, r.value.x, r.value.y)
    ensures r.Some? ==> forall x', y' :: x <= x' && Feasible(g, stock, size, x', y') ==> LexLeq(r.value, x', y')
    ensures r.None? ==> forall x', y' :: x <= x' ==> !Feasible(g, stock, size, x', y')
  {
    if x > g.stockSize(stock).w - size.w then None
    else
      match ScanColumn(g, stock, size, x, 0)
      case Some(p) => Some(p)
      case None => ScanFrom(g, stock, size, x + 1)
  }

  /**
    The raster scan `_find_position`: x over [0, W-w], y over [0, H-h], the
    first feasible position wins; `None` stands for `(None, None)`.
   */
  function FindPosition<S>(g: Geometry<S>, stock: S, size: Size): (r: Option<Pos>)
    ensures r.Some? ==> Feasible(g, stock, size, r.value.x, r.value.y)
    ensures r.Some? ==> forall x, y :: Feasible(g, stock, size, x, y) ==> LexLeq(r.value, x, y)
    ensures r.None? <==> forall x, y :: !Feasible(g, stock, size, x, y)
    ensures size.w > g.stockSize(stock).w || size.h > g.stockSize(stock).h ==> r.None?
  {
    ScanFrom(g, stock, size, 0)
  }

  /** The search result is the unique lexicographically least feasible position. */
  lemma FindPositionIsLeastFeasible<S>(g: Geometry<S>, stock: S, size: Size, p: Pos)
    requires Feasible(g, stock, size, p.x, p.y)
    requires forall x, y :: Feasible(g, stock, size, x, y) ==> LexLeq(p, x, y)
    ensures FindPosition(g, stock, size) == Some(p)
  {
  }

  /** Some position of `stock` accepts an item of `size`. */
  predicate Placeable<S>(g: Geometry<S>, stock: S, size: Size)
  {
    FindPosition(g, stock, size).Some?
  }

  /** Product `j` is still wanted and fits on at least one stock. */
  ghost predicate Eligible<S>(g: Geometry<S>, obs: Observation<S>, j: int)
    requires 0 <= j < |obs.products|
  {
    && obs.products[j].quantity > 0
    && exists i :: 0 <= i < |obs.stocks| && Placeable(g, obs.stocks[i], obs.products[j].size)
  }

  /** `a` cuts product `j` from the first stock it fits on, at that stock's search result. */
  ghost predicate CutsProduct<S>(g: Geometry<S>, obs: Observation<S>, j: int, a: Action)
    requires 0 <= j < |obs.products|
  {
    && a.size == obs.products[j].size
    && 0 <= a.stockIdx < |obs.stocks|
    && FindPosition(g, obs.stocks[a.stockIdx], a.size) == Some(a.pos)
    && forall i :: 0 <= i < a.stockIdx ==> !Placeable(g, obs.stocks[i], a.size)
  }

  /** The first stock from index `i` on that accepts an item of `size`. */
  function FirstStock<S>(g: Geometry<S>, stocks: seq<S>, size: Size, i: nat): (r: Option<nat>)
    requires i <= |stocks|
    decreases |stocks| - i
    ensures r.Some? ==> i <= r.value < |stocks| && Placeable(g, stocks[r.value], size)
    ensures r.Some? ==> forall i' :: i <= i' < r.value ==> !Placeable(g, stocks[i'], size)
    ensures r.None? ==> forall i' :: i <= i' < |stocks| ==> !Placeable(g, stocks[i'], size)
  {
    if i == |stocks| then None
    else if FindPosition(g, stocks[i], size).Some? then Some(i)
    else FirstStock(g, stocks, size, i + 1)
  }

  /** The first-fit scan over the products from index `j` on. */
  function FirstFitFrom<S>(g: Geometry<S>, obs: Observation<S>, j: nat): (a: Action)
    requires j <= |obs.products|
    decreases |obs.products| - j
    ensures a == Sentinel <==> forall j' :: j <= j' < |obs.products| ==> !Eligible(g, obs, j')
    ensures a != Sentinel ==>
      exists j' :: j <= j' < |obs.products| && Eligible(g, obs, j') && CutsProduct(g, obs, j', a)
        && forall j'' :: j <= j'' < j' ==> !Eligible(g, obs, j'')
  {
    if j == |obs.products| then Sentinel
    else
      var size := obs.products[j].size;
      if obs.products[j].quantity > 0 then
        match FirstStock(g, obs.stocks, size, 0)
        case Some(i) =>
          var a := Action(i, size, FindPosition(g, obs.stocks[i], size).value);
          assert Placeable(g, obs.stocks[i], obs.products[j].size);
          assert Eligible(g, obs, j) && CutsProduct(g, obs, j, a);
          a
        case None =>
          assert !Eligible(g, obs, j);
          FirstFitFrom(g, obs, j + 1)
      else
        assert !Eligible(g, obs, j);
        FirstFitFrom(g, obs, j + 1)
  }

  /**
    The fallback action `_random_action`: the first product with positive
    quantity that fits some stock, on the first such stock, at the search
    result; the sentinel when there is none. It involves no randomness.
   */
  function FirstFit<S>(g: Geometry<S>, obs: Observation<S>): (a: Action)
    ensures a == Sentinel <==> forall j :: 0 <= j < |obs.products| ==> !Eligible(g, obs, j)
    ensures a != Sentinel ==>
      exists j :: 0 <= j < |obs.products| && Eligible(g, obs, j) && CutsProduct(g, obs, j, a)
        && forall j' :: 0 <= j' < j ==> !Eligible(g, obs, j')
  {
    FirstFitFrom(g, obs, 0)
  }

  /** A non-sentinel fallback action names a real stock and a position the inherited query accepts. */
  lemma FirstFitIsPlaceable<S>(g: Geometry<S>, obs: Observation<S>)
    ensures var a := FirstFit(g, obs);
      a != Sentinel ==> 0 <= a.stockIdx < |obs.stocks| && g.canPlace(obs.stocks[a.stockIdx], a.pos, a.size)
  {
  }
}

=== FILE: policy.dfy ===
/**
  The decision entry point of the cutting-stock policy: construction, the
  epsilon-greedy choice, and one SARSA or Q-learning step per call.

  The policy state is threaded explicitly: each step takes the state and
  returns the state after the call. The random draws the source takes from
  numpy's global generator are parameters (a draw below epsilon means
  "explore"), and so is the state-key encoder, a deterministic function of
  the observation about which nothing else is assumed.
 */
module Policy {
  import opened Common
  import opened Placement
  import opened Rewards
  import opened ValueTable

  /** Policy id 1 learns with SARSA, policy id 2 with Q-learning. */
  datatype Mode = Sarsa | QLearning

  /** The learning rate, discount factor, exploration rate and the two tables. */
  datatype PolicyState = PolicyState(mode: Mode, alpha: real, gamma: real, epsilon: real, q: Table, sarsa: Table)

  /** Every per-state mapping of both tables has distinct action keys. */
  ghost predicate Valid(p: PolicyState)
  {
    && (forall s :: s in p.q ==> DistinctKeys(p.q[s]))
    && (forall s :: s in p.sarsa ==> DistinctKeys(p.sarsa[s]))
  }

  /** The constructor: any policy id other than 1 or 2 is refused; both tables start empty. */
  function NewPolicy(id: int, alpha: real, gamma: real, epsilon: real): (r: Result<PolicyState, Fault>)
    ensures r.Success? <==> id == 1 || id == 2
    ensures r.Failure? ==> r.error == InvalidPolicyId
    ensures r.Success? ==> r.value.mode == (if id == 1 then Sarsa else QLearning)
    ensures r.Success? ==> r.value.q == map[] && r.value.sarsa == map[] && Valid(r.value)
    ensures r.Success? ==> r.value.alpha == alpha && r.value.gamma == gamma && r.value.epsilon == epsilon
  {
    if id == 1 then Success(PolicyState(Sarsa, alpha, gamma, epsilon, map[], map[]))
    else if id == 2 then Success(PolicyState(QLearning, alpha, gamma, epsilon, map[], map[]))
    else Failure(InvalidPolicyId)
  }

  /**
    What a selection hands back: an action dict built by the fallback scan,
    or an action-key tuple taken from a table, which the rest of the step
    cannot subscript like a dict.
   */
  datatype Choice = ActionDict(action: Action) | ActionKeyTuple(key: Action)

  /**
    `_select_best_action_sarsa` on the mapping of the current state: the
    fallback action for an empty mapping, otherwise the key of the first
    entry with the greatest value.
   */
  function SelectBestSarsa<S>(g: Geometry<S>, m: ActionValues, obs: Observation<S>): (c: Choice)
    ensures c.ActionDict? <==> |m| == 0
    ensures c.ActionDict? ==> c.action == FirstFit(g, obs)
    ensures c.ActionKeyTuple? ==> exists i :: IsFirstMax(m, i) && m[i].0 == c.key
  {
    if |m| == 0 then ActionDict(FirstFit(g, obs)) else ActionKeyTuple(m[ArgMax(m)].0)
  }

  /** The end of one decision call: an action and the state after it, or a fault and the state it left. */
  datatype Outcome = Acted(action: Action, policy: PolicyState) | Raised(fault: Fault, policy: PolicyState)

  /** Registers state `s` with an empty mapping unless the table already knows it. */
  function Visit(t: Table, s: string): (r: Table)
    ensures r.Keys == t.Keys + {s}
    ensures forall u :: u in t ==> r[u] == t[u]
    ensures s !in t ==> r[s] == []
  {
    if s in t then t else t[s := []]
  }

  /**
    `_sarsa_action`: choose an action epsilon-greedily, score it, choose the
    next action the same way for the next state (whose key is computed from
    the same observation), then apply the SARSA update.
   */
  function SarsaStep<S>(p: PolicyState, g: Geometry<S>, key: Observation<S> -> string, obs: Observation<S>,
                        draw: real, nextDraw: real): (r: Outcome)
    ensures r.Acted? ==> r.action == FirstFit(g, obs)
    ensures r.policy.mode == p.mode && r.policy.alpha == p.alpha && r.policy.gamma == p.gamma
    ensures r.policy.epsilon == p.epsilon && r.policy.q == p.q
    ensures key(obs) in r.policy.sarsa && p.sarsa.Keys <= r.policy.sarsa.Keys
    ensures r.Raised? ==> r.policy == p.(sarsa := Visit(p.sarsa, key(obs)))
    ensures var fallbackFirst := draw < p.epsilon || |Visit(p.sarsa, key(obs))[key(obs)]| == 0;
      var reward := Reward(g, FirstFit(g, obs), obs);
      r.Raised? ==> r.fault == if fallbackFirst && reward.Failure? then reward.error else KeyTupleSubscript
  {
    var s := key(obs);
    var t := Visit(p.sarsa, s);
    var p1 := p.(sarsa := t);
    var choice := if draw < p.epsilon then ActionDict(FirstFit(g, obs)) else SelectBestSarsa(g, t[s], obs);
    if choice.ActionKeyTuple? then Raised(KeyTupleSubscript, p1)
    else
      var action := choice.action;
      match Reward(g, action, obs)
      case Failure(f) => Raised(f, p1)
      case Success(reward) =>
        var next := key(obs);
        var nextChoice := if nextDraw < p.epsilon then ActionDict(FirstFit(g, obs)) else SelectBestSarsa(g, t[next], obs);
        if nextChoice.ActionKeyTuple? then Raised(KeyTupleSubscript, p1)
        else Acted(action, p1.(sarsa := SarsaUpdate(t, p.alpha, p.gamma, s, action, reward, next, nextChoice.action)))
  }

  /**
    `_q_learning_action` with `_update_q_table`: explore with the fallback
    action, or exploit (which always fails), then apply the Q-learning update
    with the next state's key computed from the same observation.
   */
  function QLearningStep<S>(p: PolicyState, g: Geometry<S>, key: Observation<S> -> string, obs: Observation<S>,
                            draw: real): (r: Outcome)
    ensures r.Acted? ==> r.action == FirstFit(g, obs)
    ensures r.policy.mode == p.mode && r.policy.alpha == p.alpha && r.policy.gamma == p.gamma
    ensures r.policy.epsilon == p.epsilon && r.policy.sarsa == p.sarsa
    ensures key(obs) in r.policy.q && p.q.Keys <= r.policy.q.Keys
    ensures r.Acted? <==> draw < p.epsilon && Reward(g, FirstFit(g, obs), obs).Success?
    ensures r.Raised? ==> r.policy == p.(q := Visit(p.q, key(obs)))
    ensures r.Raised? ==> r.fault == (if draw >= p.epsilon then MissingArgument else Reward(g, FirstFit(g, obs), obs).error)
  {
    var s := key(obs);
    var t := Visit(p.q, s);
    var p1 := p.(q := t);
    // Exploitation (`_select_best_action_q_learning`) evaluates the default of
    // `max` first, and that default calls the fallback scan without its
    // observation: a TypeError, whatever the mapping holds.
    if draw >= p.epsilon then Raised(MissingArgument, p1)
    else
      var action := FirstFit(g, obs);
      match Reward(g, action, obs)
      case Failure(f) => Raised(f, p1)
      case Success(reward) =>
        var next := key(obs);
        Acted(action, p1.(q := QUpdate(t, p.alpha, p.gamma, s, action, reward, next)))
  }

  /**
    `get_action`: one decision call in the configured mode. Q-learning uses
    only the first draw; SARSA uses the second only after its action has
    been scored.
   */
  function GetAction<S>(p: PolicyState, g: Geometry<S>, key: Observation<S> -> string, obs: Observation<S>,
                        draw: real, nextDraw: real): (r: Outcome)
    ensures r.Acted? ==> r.action == FirstFit(g, obs)
    ensures r.policy.mode == p.mode && r.policy.alpha == p.alpha && r.policy.gamma == p.gamma
    ensures r.policy.epsilon == p.epsilon
    ensures p.mode == Sarsa ==> r.policy.q == p.q && key(obs) in r.policy.sarsa
    ensures p.mode == QLearning ==> r.policy.sarsa == p.sarsa && key(obs) in r.policy.q
    ensures r.Raised? && p.mode == Sarsa ==> r.policy == p.(sarsa := Visit(p.sarsa, key(obs)))
    ensures r.Raised? && p.mode == QLearning ==> r.policy == p.(q := Visit(p.q, key(obs)))
  {
    match p.mode
    case Sarsa => SarsaStep(p, g, key, obs, draw, nextDraw)
    case QLearning => QLearningStep(p, g, key, obs, draw)
  }

  /** Q-learning exploitation fails on every table, after registering the current state. */
  lemma QExploitationAlwaysFails<S>(p: PolicyState, g: Geometry<S>, key: Observation<S> -> string,
                                    obs: Observation<S>, draw: real)
    requires draw >= p.epsilon
    ensures QLearningStep(p, g, key, obs, draw) == Raised(MissingArgument, p.(q := Visit(p.q, key(obs))))
  {
  }

  /**
    A Q-learning step that acts moves the entry of the fallback action under
    the current state towards the reward plus the discounted best value of
    that same state, since the next state's key is the current one, and
    changes no other entry.
   */
  lemma QStepLooksAheadAtOwnState<S>(p: PolicyState, g: Geometry<S>, key: Observation<S> -> string,
                                     obs: Observation<S>, draw: real)
    requires QLearningStep(p, g, key, obs, draw).Acted?
    ensures var r := QLearningStep(p, g, key, obs, draw);
      var s := key(obs);
      var a := FirstFit(g, obs);
      && draw < p.epsilon
      && Reward(g, a, obs).Success?
      && WritesOnly(Visit(p.q, s), r.policy.q, s, a)
      && Lookup(r.policy.q[s], a)
         == Blend(p.alpha, p.gamma, ValueAt(p.q, s, a), Reward(g, a, obs).value, MaxFuture(Visit(p.q, s), s))
  {
  }

  /**
    SARSA exploitation on a state whose mapping is not empty picks an
    action-key tuple, which fails when it is scored.
   */
  lemma SarsaExploitationFails<S>(p: PolicyState, g: Geometry<S>, key: Observation<S> -> string,
                                  obs: Observation<S>, draw: real, nextDraw: real)
    requires key(obs) in p.sarsa && |p.sarsa[key(obs)]| > 0
    requires draw >= p.epsilon
    ensures SarsaStep(p, g, key, obs, draw, nextDraw) == Raised(KeyTupleSubscript, p)
  {
  }

  /**
    A SARSA step acts exactly when neither draw selects from a non-empty
    mapping of the current state and the fallback action has a finite reward.
   */
  lemma SarsaStepActsExactly<S>(p: PolicyState, g: Geometry<S>, key: Observation<S> -> string,
                                obs: Observation<S>, draw: real, nextDraw: real)
    ensures var t := Visit(p.sarsa, key(obs));
      var empty := |t[key(obs)]| == 0;
      SarsaStep(p, g, key, obs, draw, nextDraw).Acted?
      <==> (draw < p.epsilon || empty) && (nextDraw < p.epsilon || empty) && Reward(g, FirstFit(g, obs), obs).Success?
  {
  }

  /**
    A SARSA step that acts looks ahead at the entry of the very action it
    takes under the very state it is in: the next action is the fallback
    action again and the next state's key is the current one.
   */
  lemma SarsaStepLooksAheadAtOwnEntry<S>(p: PolicyState, g: Geometry<S>, key: Observation<S> -> string,
                                         obs: Observation<S>, draw: real, nextDraw: real)
    requires SarsaStep(p, g, key, obs, draw, nextDraw).Acted?
    ensures var r := SarsaStep(p, g, key, obs, draw, nextDraw);
      var s := key(obs);
      var a := FirstFit(g, obs);
      && Reward(g, a, obs).Success?
      && WritesOnly(Visit(p.sarsa, s), r.policy.sarsa, s, a)
      && Lookup(r.policy.sarsa[s], a)
         == Blend(p.alpha, p.gamma, ValueAt(p.sarsa, s, a), Reward(g, a, obs).value, ValueAt(p.sarsa, s, a))
  {
  }

  /**
    After a SARSA step that acts, the same observation can no longer be
    exploited: the state's mapping now holds the action taken.
   */
  lemma SarsaRevisitCannotExploit<S>(p: PolicyState, g: Geometry<S>, key: Observation<S> -> string,
                                     obs: Observation<S>, draw: real, nextDraw: real, draw': real, nextDraw': real)
    requires SarsaStep(p, g, key, obs, draw, nextDraw).Acted?
    requires draw' >= p.epsilon
    ensures var p' := SarsaStep(p, g, key, obs, draw, nextDraw).policy;
      SarsaStep(p', g, key, obs, draw', nextDraw') == Raised(KeyTupleSubscript, p')
  {
  }

  /** Every action the policy returns is the fallback action: exploitation never gets as far as acting. */
  lemma EveryActionIsFallback<S>(p: PolicyState, g: Geometry<S>, key: Observation<S> -> string,
                                 obs: Observation<S>, draw: real, nextDraw: real)
    requires GetAction(p, g, key, obs, draw, nextDraw).Acted?
    ensures var a := GetAction(p, g, key, obs, draw, nextDraw).action;
      && a == FirstFit(g, obs)
      && (a == Sentinel || (0 <= a.stockIdx < |obs.stocks| && g.canPlace(obs.stocks[a.stockIdx], a.pos, a.size)))
  {
  }

  /**
    A decision call keeps the action keys of every mapping distinct, never
    forgets a state, and changes only the table of the configured mode.
   */
  lemma GetActionKeepsValid<S>(p: PolicyState, g: Geometry<S>, key: Observation<S> -> string,
                               obs: Observation<S>, draw: real, nextDraw: real)
    requires Valid(p)
    ensures var r := GetAction(p, g, key, obs, draw, nextDraw);
      && Valid(r.policy)
      && p.q.Keys <= r.policy.q.Keys
      && p.sarsa.Keys <= r.policy.sarsa.Keys
  {
    var r := GetAction(p, g, key, obs, draw, nextDraw);
    var s := key(obs);
    var a := FirstFit(g, obs);
    match p.mode
    case Sarsa =>
      var t := Visit(p.sarsa, s);
      assert forall u :: u in t ==> DistinctKeys(t[u]);
      if r.Acted? {
        SarsaStepLooksAheadAtOwnEntry(p, g, key, obs, draw, nextDraw);
        UpdateKeepsDistinct(t, r.policy.sarsa, s, a);
      }
    case QLearning =>
      var t := Visit(p.q, s);
      assert forall u :: u in t ==> DistinctKeys(t[u]);
      if r.Acted? {
        QStepLooksAheadAtOwnState(p, g, key, obs, draw);
        UpdateKeepsDistinct(t, r.policy.q, s, a);
      }
  }

  /** A write of one entry keeps every mapping's keys distinct. */
  lemma UpdateKeepsDistinct(before: Table, after: Table, s: string, a: Action)
    requires WritesOnly(before, after, s, a)
    requires forall u :: u in before ==> DistinctKeys(before[u])
    ensures forall u :: u in after ==> DistinctKeys(after[u])
  {
  }
}

=== FILE: rewards.dfy ===
/**
  The reward model of the policy: how a chosen action is scored against the
  observation it was chosen for.
 */
module Rewards {
  import opened Common
  import opened Placement

  function Area(s: Size): int
  {
    s.w * s.h
  }

  /** The success reward `10 + 20 * filled_ratio`, where the ratio is item area over stock area. */
  function SuccessReward(item: Size, stock: Size): real
    requires Area(stock) != 0
  {
    10.0 + (Area(item) as real / Area(stock) as real) * 20.0
  }

  /**
    Python list indexing: a non-negative index counts from the front, a
    negative one from the back, anything else is an IndexError.
   */
  function ResolveIndex(n: nat, i: int): (r: Option<nat>)
    ensures r.Some? <==> -(n as int) <= i < n
    ensures r.Some? ==> r.value < n && (0 <= i ==> r.value == i) && (i < 0 ==> r.value == n + i)
  {
    if 0 <= i < n then Some(i)
    else if -(n as int) <= i < 0 then Some(n + i)
    else None
  }

  /**
    `_calculate_reward`: -5 for the sentinel stock index -1 (the stocks are
    not looked at), otherwise the addressed stock decides: the success reward
    when the inherited query accepts the item at the action's position, -10
    when it does not.
   */
  function Reward<S>(g: Geometry<S>, a: Action, obs: Observation<S>): (r: Result<real, Fault>)
    ensures a.stockIdx == -1 ==> r == Success(-5.0)
    ensures a.stockIdx != -1 && !(-|obs.stocks| <= a.stockIdx < |obs.stocks|) ==> r == Failure(StockIndexOutOfRange)
    ensures 0 <= a.stockIdx < |obs.stocks| ==>
      var stock := obs.stocks[a.stockIdx];
      && (!g.canPlace(stock, a.pos, a.size) ==> r == Success(-10.0))
      && (g.canPlace(stock, a.pos, a.size) && Area(g.stockSize(stock)) != 0 ==>
            r == Success(SuccessReward(a.size, g.stockSize(stock))))
      && (g.canPlace(stock, a.pos, a.size) && Area(g.stockSize(stock)) == 0 ==> r == Failure(NonFiniteReward))
    ensures r.Failure? ==> r.error == StockIndexOutOfRange || r.error == NonFiniteReward
  {
    if a.stockIdx == -1 then Success(-5.0)
    else
      match ResolveIndex(|obs.stocks|, a.stockIdx)
      case None => Failure(StockIndexOutOfRange)
      case Some(i) =>
        var stock := obs.stocks[i];
        if g.canPlace(stock, a.pos, a.size) then
          var dims := g.stockSize(stock);
          if Area(dims) == 0 then Failure(NonFiniteReward)
          else Success(SuccessReward(a.size, dims))
        else Success(-10.0)
  }

  /** The sentinel's reward does not depend on the observation at all, not even on there being stocks. */
  lemma SentinelRewardIgnoresObservation<S>(g: Geometry<S>, size: Size, pos: Pos, obs: Observation<S>, obs': Observation<S>)
    ensures Reward(g, Action(-1, size, pos), obs) == Reward(g, Action(-1, size, pos), obs') == Success(-5.0)
  {
  }

  /** A negative stock index other than -1 addresses the stock that many places from the end. */
  lemma NegativeIndexCountsFromEnd<S>(g: Geometry<S>, a: Action, obs: Observation<S>)
    requires -|obs.stocks| <= a.stockIdx < -1
    ensures Reward(g, a, obs) == Reward(g, a.(stockIdx := |obs.stocks| + a.stockIdx), obs)
  {
  }

  /**
    On one stock of positive area, a successful cut of a larger item earns a
    strictly larger reward, and every successful cut of a non-empty item earns
    more than 10.
   */
  lemma RewardGrowsWithItemArea<S>(g: Geometry<S>, obs: Observation<S>, a: Action, b: Action)
    requires 0 <= a.stockIdx < |obs.stocks| && b.stockIdx == a.stockIdx
    requires Area(g.stockSize(obs.stocks[a.stockIdx])) > 0
    requires g.canPlace(obs.stocks[a.stockIdx], a.pos, a.size) && g.canPlace(obs.stocks[b.stockIdx], b.pos, b.size)
    requires Area(a.size) < Area(b.size)
    ensures Reward(g, a, obs).Success? && Reward(g, b, obs).Success?
    ensures Reward(g, a, obs).value < Reward(g, b, obs).value
    ensures Area(a.size) > 0 ==> Reward(g, a, obs).value > 10.0
  {
  }

  /**
    A fallback action is never scored -10: the search only returns positions
    the inherited query accepts, so the reward is -5 for the sentinel and the
    success reward otherwise (or non-finite, on a stock of area zero).
   */
  lemma FallbackNeverPenalised<S>(g: Geometry<S>, obs: Observation<S>)
    ensures var a := FirstFit(g, obs);
      var r := Reward(g, a, obs);
      && (a == Sentinel ==> r == Success(-5.0))
      && (a != Sentinel ==>
            && 0 <= a.stockIdx < |obs.stocks|
            && var dims := g.stockSize(obs.stocks[a.stockIdx]);
            && (Area(dims) != 0 ==> r == Success(SuccessReward(a.size, dims)))
            && (Area(dims) == 0 ==> r == Failure(NonFiniteReward)))
  {
  }
}

=== FILE: scenarios.dfy ===
/**
  Worked instances of the model on a single 4 x 4 stock. The stock is
  represented only by whether it is fully occupied; the placement query
  accepts an in-bounds rectangle on a free stock.
 */
module Scenarios {
  import opened Common
  import opened Placement
  import opened Rewards
  import opened Policy

  /** A 4 x 4 stock, free (false) or fully occupied (true). */
  function Board(): Geometry<bool>
  {
    Geometry(
      (full: bool, p: Pos, size: Size) => !full && 0 <= p.x && p.x + size.w <= 4 && 0 <= p.y && p.y + size.h <= 4,
      (full: bool) => Size(4, 4))
  }

  /** One stock and one wanted 2 x 2 item. */
  function TwoByTwo(full: bool): Observation<bool>
  {
    Observation([full], [Product(Size(2, 2), 1)])
  }

  /** On the free stock the 2 x 2 item goes to (0, 0) and earns 10 + 20 * 4/16 = 15. */
  lemma FreeStockScenario()
    ensures FindPosition(Board(), false, Size(2, 2)) == Some(Pos(0, 0))
    ensures FirstFit(Board(), TwoByTwo(false)) == Action(0, Size(2, 2), Pos(0, 0))
    ensures Reward(Board(), FirstFit(Board(), TwoByTwo(false)), TwoByTwo(false)) == Success(15.0)
  {
  }

  /** On the occupied stock nothing fits: the fallback is the sentinel and the reward is -5. */
  lemma OccupiedStockScenario()
    ensures FindPosition(Board(), true, Size(2, 2)) == None
    ensures FirstFit(Board(), TwoByTwo(true)) == Sentinel
    ensures Reward(Board(), FirstFit(Board(), TwoByTwo(true)), TwoByTwo(true)) == Success(-5.0)
  {
  }

  /**
    A fresh SARSA policy on the free stock acts with the fallback action and
    records alpha * 15 for it; asked again about the same observation, it
    fails as soon as the first draw exploits.
   */
  lemma SarsaFirstThenExploitScenario(key: Observation<bool> -> string, alpha: real, gamma: real, epsilon: real,
                                      draw: real, nextDraw: real, draw': real, nextDraw': real)
    requires draw' >= epsilon
    ensures var p := NewPolicy(1, alpha, gamma, epsilon).value;
      var r := GetAction(p, Board(), key, TwoByTwo(false), draw, nextDraw);
      && r == Acted(Action(0, Size(2, 2), Pos(0, 0)), r.policy)
      && r.policy.sarsa == map[key(TwoByTwo(false)) := [(Action(0, Size(2, 2), Pos(0, 0)), alpha * 15.0)]]
      && GetAction(r.policy, Board(), key, TwoByTwo(false), draw', nextDraw') == Raised(KeyTupleSubscript, r.policy)
  {
    var p := NewPolicy(1, alpha, gamma, epsilon).value;
    FreeStockScenario();
    var r := GetAction(p, Board(), key, TwoByTwo(false), draw, nextDraw);
    assert r == SarsaStep(p, Board(), key, TwoByTwo(false), draw, nextDraw);
    assert r.Acted?;
    SarsaRevisitCannotExploit(p, Board(), key, TwoByTwo(false), draw, nextDraw, draw', nextDraw');
  }
}

=== FILE: valuetable.dfy ===
/**
  The value tables of the policy and their two update rules.

  A table maps a state key to the action values recorded for that state. The
  per-state mapping is a Python dict, whose iteration order is insertion
  order and decides ties in the argmax; it is modelled as a sequence of
  (action key, value) pairs. The outer level is only ever looked up and
  assigned, so a Dafny map models it.
 */
module ValueTable {
  import opened Placement

  type ActionValues = seq<(Action, real)>

  type Table = map<string, ActionValues>

  /** The action keys of a mapping, in insertion order. */
  function Keys(m: ActionValues): (ks: seq<Action>)
    ensures |ks| == |m|
    ensures forall i :: 0 <= i < |m| ==> ks[i] == m[i].0
  {
    if |m| == 0 then [] else [m[0].0] + Keys(m[1..])
  }

  /** No action key occurs twice, as in a Python dict. */
  predicate DistinctKeys(m: ActionValues)
  {
    forall i, j :: 0 <= i < j < |m| ==> m[i].0 != m[j].0
  }

  /** `m.get(k, 0)`: the value recorded for `k`, or 0 for an unseen key. */
  function Lookup(m: ActionValues, k: Action): (v: real)
    ensures k !in Keys(m) ==> v == 0.0
  {
    if |m| == 0 then 0.0
    else if m[0].0 == k then m[0].1
    else Lookup(m[1..], k)
  }

  /**
    `m[k] = v`: an existing key keeps its place and takes the new value, a
    new key is appended at the end.
   */
  function Assign(m: ActionValues, k: Action, v: real): (r: ActionValues)
    ensures Lookup(r, k) == v
    ensures forall k' :: k' != k ==> Lookup(r, k') == Lookup(m, k')
  {
    if |m| == 0 then [(k, v)]
    else if m[0].0 == k then [(k, v)] + m[1..]
    else
      var rest := Assign(m[1..], k, v);
      assert ([m[0]] + rest)[1..] == rest;
      [m[0]] + rest
  }

  /** Assignment keeps an existing key in its place and appends a new key at the end. */
  lemma {:induction false} AssignKeyOrder(m: ActionValues, k: Action, v: real)
    ensures Keys(Assign(m, k, v)) == if k in Keys(m) then Keys(m) else Keys(m) + [k]
  {
    if |m| > 0 && m[0].0 != k {
      AssignKeyOrder(m[1..], k, v);
      var rest := Assign(m[1..], k, v);
      assert Assign(m, k, v) == [m[0]] + rest;
      assert ([m[0]] + rest)[1..] == rest;
      assert Keys(m) == [m[0].0] + Keys(m[1..]);
      assert Keys(Assign(m, k, v)) == [m[0].0] + Keys(rest);
    }
  }

  /** In a mapping with distinct keys, a recorded key reads as the value recorded for it. */
  lemma {:induction false} LookupFindsEntry(m: ActionValues, i: int)
    requires DistinctKeys(m) && 0 <= i < |m|
    ensures Lookup(m, m[i].0) == m[i].1
  {
    if i > 0 {
      assert m[0].0 != m[i].0;
      assert m[1..][i - 1] == m[i];
      LookupFindsEntry(m[1..], i - 1);
    }
  }

  /** Assignment keeps the keys of a mapping distinct. */
  lemma AssignKeepsDistinct(m: ActionValues, k: Action, v: real)
    requires DistinctKeys(m)
    ensures DistinctKeys(Assign(m, k, v))
  {
    var r := Assign(m, k, v);
    var ks := Keys(r);
    AssignKeyOrder(m, k, v);
    if k !in Keys(m) {
      forall i, j | 0 <= i < j < |r|
        ensures r[i].0 != r[j].0
      {
        assert ks[i] == r[i].0 && ks[j] == r[j].0;
        if j == |m| {
          assert Keys(m)[i] == ks[i];
        } else {
          assert Keys(m)[i] == ks[i] && Keys(m)[j] == ks[j];
        }
      }
    } else {
      forall i, j | 0 <= i < j < |r|
        ensures r[i].0 != r[j].0
      {
        assert ks[i] == r[i].0 && ks[j] == r[j].0;
        assert Keys(m)[i] == ks[i] && Keys(m)[j] == ks[j];
      }
    }
  }

  /** Entry `i` holds a greatest value, and every entry before it holds a strictly smaller one. */
  predicate IsFirstMax(m: ActionValues, i: int)
  {
    && 0 <= i < |m|
    && (forall j :: 0 <= j < |m| ==> m[j].1 <= m[i].1)
    && (forall j :: 0 <= j < i ==> m[j].1 < m[i].1)
  }

  /**
    Python's `max` over the entries from `i` on, with `best` the winner so
    far: a later entry replaces the winner only when strictly greater.
   */
  function ArgMaxFrom(m: ActionValues, i: nat, best: nat): (r: nat)
    requires best < i <= |m|
    requires forall j :: 0 <= j < i ==> m[j].1 <= m[best].1
    requires forall j :: 0 <= j < best ==> m[j].1 < m[best].1
    decreases |m| - i
    ensures IsFirstMax(m, r)
  {
    if i == |m| then best
    else if m[i].1 > m[best].1 then ArgMaxFrom(m, i + 1, i)
    else ArgMaxFrom(m, i + 1, best)
  }

  /** The index of the entry `max(m, key=m.get)` returns: the first one with the greatest value. */
  function ArgMax(m: ActionValues): (r: nat)
    requires |m| > 0
    ensures IsFirstMax(m, r)
  {
    ArgMaxFrom(m, 1, 0)
  }

  /** `max(m.values(), default=0)`: the greatest value, 0 for an empty mapping, never clamped. */
  function MaxOrZero(m: ActionValues): (v: real)
    ensures |m| == 0 ==> v == 0.0
    ensures |m| > 0 ==> exists i :: 0 <= i < |m| && m[i].1 == v
    ensures forall i :: 0 <= i < |m| ==> m[i].1 <= v
  {
    if |m| == 0 then 0.0 else m[ArgMax(m)].1
  }

  /** The value of `(s, a)`, 0 when the state or the action is unseen. */
  function ValueAt(t: Table, s: string, a: Action): real
  {
    if s in t then Lookup(t[s], a) else 0.0
  }

  /** `v` lies between `lo` and `hi`, in whichever order they come. */
  predicate Between(v: real, lo: real, hi: real)
  {
    (lo <= hi ==> lo <= v <= hi) && (hi <= lo ==> hi <= v <= lo)
  }

  /**
    The shared update `(1 - alpha) * current + alpha * (reward + gamma * future)`:
    a step of size alpha from the current value towards the target.
   */
  function Blend(alpha: real, gamma: real, current: real, reward: real, future: real): (v: real)
    ensures 0.0 <= alpha <= 1.0 ==> Between(v, current, reward + gamma * future)
    ensures alpha == 0.0 ==> v == current
    ensures alpha == 1.0 ==> v == reward + gamma * future
  {
    var target := reward + gamma * future;
    var v := (1.0 - alpha) * current + alpha * target;
    assert v - current == alpha * (target - current);
    StepBetween(alpha, current, target);
    v
  }

  lemma StepBetween(alpha: real, current: real, target: real)
    ensures 0.0 <= alpha <= 1.0 ==> Between(current + alpha * (target - current), current, target)
  {
    if 0.0 <= alpha <= 1.0 {
      var d := target - current;
      if d >= 0.0 {
        MulNonneg(alpha, d);
        MulNonneg(1.0 - alpha, d);
        assert d - alpha * d == (1.0 - alpha) * d;
      } else {
        MulNonneg(alpha, -d);
        MulNonneg(1.0 - alpha, -d);
        assert alpha * d - d == (1.0 - alpha) * (-d);
        assert alpha * d == -(alpha * (-d));
      }
    }
  }

  lemma MulNonneg(x: real, y: real)
    requires x >= 0.0 && y >= 0.0
    ensures x * y >= 0.0
  {
  }

  /**
    `after` differs from `before` in the entry of action `a` under state `s`
    only: the state set, every other state's mapping, the key order of `s`
    (up to appending `a`) and every other action's value are as before.
   */
  ghost predicate WritesOnly(before: Table, after: Table, s: string, a: Action)
  {
    && s in before
    && after.Keys == before.Keys
    && (forall t :: t in before && t != s ==> after[t] == before[t])
    && Keys(after[s]) == (if a in Keys(before[s]) then Keys(before[s]) else Keys(before[s]) + [a])
    && (forall k :: k != a ==> Lookup(after[s], k) == Lookup(before[s], k))
  }

  /**
    `_update_sarsa_table`: the entry of `(s, a)` moves towards the reward plus
    the discounted value of `(next, nextAction)`, read before the write.
   */
  function SarsaUpdate(t: Table, alpha: real, gamma: real, s: string, a: Action, reward: real,
                       next: string, nextAction: Action): (r: Table)
    requires s in t
    ensures WritesOnly(t, r, s, a)
    ensures Lookup(r[s], a) == Blend(alpha, gamma, ValueAt(t, s, a), reward, ValueAt(t, next, nextAction))
  {
    var current := Lookup(t[s], a);
    var nextValue := if next in t then Lookup(t[next], nextAction) else 0.0;
    AssignKeyOrder(t[s], a, Blend(alpha, gamma, current, reward, nextValue));
    t[s := Assign(t[s], a, Blend(alpha, gamma, current, reward, nextValue))]
  }

  /** The best value recorded for a state, 0 when the state is unseen or has no entries. */
  function MaxFuture(t: Table, s: string): (v: real)
    ensures s !in t || |t[s]| == 0 ==> v == 0.0
    ensures s in t && |t[s]| > 0 ==> exists i :: 0 <= i < |t[s]| && t[s][i].1 == v
    ensures s in t ==> forall i :: 0 <= i < |t[s]| ==> t[s][i].1 <= v
  {
    if s in t then MaxOrZero(t[s]) else 0.0
  }

  /**
    `_update_q_table`: the entry of `(s, a)` moves towards the reward plus
    the discounted best value recorded for `next`, read before the write.
   */
  function QUpdate(t: Table, alpha: real, gamma: real, s: string, a: Action, reward: real, next: string): (r: Table)
    requires s in t
    ensures WritesOnly(t, r, s, a)
    ensures Lookup(r[s], a) == Blend(alpha, gamma, ValueAt(t, s, a), reward, MaxFuture(t, next))
  {
    AssignKeyOrder(t[s], a, Blend(alpha, gamma, Lookup(t[s], a), reward, MaxFuture(t, next)));
    t[s := Assign(t[s], a, Blend(alpha, gamma, Lookup(t[s], a), reward, MaxFuture(t, next)))]
  }

  /** `n` Q-learning updates of `(s, a)` with reward 0 and discount 0. */
  function Decay(t: Table, alpha: real, s: string, a: Action, n: nat): (r: Table)
    requires s in t
    ensures s in r
  {
    if n == 0 then t else QUpdate(Decay(t, alpha, s, a, n - 1), alpha, 0.0, s, a, 0.0, s)
  }

  /** `v = (1 - alpha) * c` with alpha in [0, 1] keeps the sign of `c` and is no further from 0; for alpha > 0 and non-zero `c` it is strictly nearer. */
  lemma ScaleTowardZero(alpha: real, c: real, v: real)
    requires 0.0 <= alpha <= 1.0 && v == (1.0 - alpha) * c
    ensures c >= 0.0 ==> 0.0 <= v <= c
    ensures c <= 0.0 ==> c <= v <= 0.0
    ensures 0.0 < alpha && c > 0.0 ==> v < c
    ensures 0.0 < alpha && c < 0.0 ==> v > c
  {
    MulNonneg(1.0 - alpha, if c >= 0.0 then c else -c);
    MulNonneg(alpha, if c >= 0.0 then c else -c);
    assert v == c - alpha * c;
    if 0.0 < alpha && c != 0.0 {
      assert alpha * (if c >= 0.0 then c else -c) > 0.0;
    }
  }

  /**
    A blend towards target 0 (reward 0, discount 0) with alpha in [0, 1] keeps
    the sign of the current value and is no further from 0; for alpha > 0 a
    non-zero value moves strictly nearer to 0.
   */
  lemma BlendTowardZero(alpha: real, c: real, f: real)
    requires 0.0 <= alpha <= 1.0
    ensures var v := Blend(alpha, 0.0, c, 0.0, f);
      && (c >= 0.0 ==> 0.0 <= v <= c) && (c <= 0.0 ==> c <= v <= 0.0)
      && (0.0 < alpha && c > 0.0 ==> v < c) && (0.0 < alpha && c < 0.0 ==> v > c)
  {
    var v := Blend(alpha, 0.0, c, 0.0, f);
    assert v == (1.0 - alpha) * c + alpha * (0.0 + 0.0 * f);
    ScaleTowardZero(alpha, c, v);
  }

  /** One update with reward 0 and discount 0 keeps the entry's sign and, for alpha > 0, moves a non-zero entry strictly toward 0. */
  lemma ZeroUpdateShrinks(u: Table, alpha: real, s: string, a: Action)
    requires s in u && 0.0 <= alpha <= 1.0
    ensures var before := ValueAt(u, s, a);
      var after := ValueAt(QUpdate(u, alpha, 0.0, s, a, 0.0, s), s, a);
      && (before >= 0.0 ==> 0.0 <= after <= before) && (before <= 0.0 ==> before <= after <= 0.0)
      && (0.0 < alpha && before > 0.0 ==> after < before) && (0.0 < alpha && before < 0.0 ==> after > before)
  {
    BlendTowardZero(alpha, ValueAt(u, s, a), MaxFuture(u, s));
  }

  /** One more step of `Decay` is one more zero-reward update. */
  lemma DecayUnfold(t: Table, alpha: real, s: string, a: Action, n: nat)
    requires s in t
    ensures Decay(t, alpha, s, a, n + 1) == QUpdate(Decay(t, alpha, s, a, n), alpha, 0.0, s, a, 0.0, s)
  {
  }

  /**
    With reward 0, discount 0 and alpha in [0, 1], each further update brings
    the value no further from 0, and for alpha > 0 a non-zero value strictly
    nearer to it.
   */
  lemma {:induction false} DecayShrinks(t: Table, alpha: real, s: string, a: Action, n: nat)
    requires s in t && 0.0 <= alpha <= 1.0
    ensures var before := ValueAt(Decay(t, alpha, s, a, n), s, a);
      var after := ValueAt(Decay(t, alpha, s, a, n + 1), s, a);
      && (before >= 0.0 ==> 0.0 <= after <= before) && (before <= 0.0 ==> before <= after <= 0.0)
      && (0.0 < alpha && before > 0.0 ==> after < before) && (0.0 < alpha && before < 0.0 ==> after > before)
  {
    DecayUnfold(t, alpha, s, a, n);
    ZeroUpdateShrinks(Decay(t, alpha, s, a, n), alpha, s, a);
  }

  /**
    With reward 0, discount 0 and alpha in [0, 1], the value after any number
    of updates keeps the sign of the original value and is no larger in
    magnitude.
   */
  lemma {:induction false} DecayStaysBetween(t: Table, alpha: real, s: string, a: Action, n: nat)
    requires s in t && 0.0 <= alpha <= 1.0
    ensures Between(Lookup(Decay(t, alpha, s, a, n)[s], a), 0.0, Lookup(t[s], a))
  {
    if n > 0 {
      var m := n - 1;
      DecayStaysBetween(t, alpha, s, a, m);
      DecayShrinks(t, alpha, s, a, m);
      var before := Lookup(Decay(t, alpha, s, a, m)[s], a);
      var after := Lookup(Decay(t, alpha, s, a, m + 1)[s], a);
      assert (before >= 0.0 ==> 0.0 <= after <= before) && (before <= 0.0 ==> before <= after <= 0.0);
      assert Between(before, 0.0, Lookup(t[s], a));
      assert Between(after, 0.0, Lookup(t[s], a));
    }
  }
}
